=== FILE: README.md ===
# Orbital-mechanics engines of two animation scripts

This project models the calculations behind two small orbital-mechanics animations.
Drawing is not modelled.

- **Hohmann transfer** (`HohmannTransferOrbit.py`). A craft on a circular orbit around
  the Sun moves to a second circular orbit. It burns once, coasts along half of a
  transfer ellipse, and burns again. The engine covers:
  - the vis-viva speed `calculate_orbital_velocity`;
  - the solver `calculate_hohmann_velocities`;
  - the transfer-ellipse geometry that `update` draws;
  - the frame-indexed phase schedule of `update`: pre-burn coast, burn 1, transfer
    coast, burn 2, post-burn coast, commit;
  - the `start_transfer` button, and the commit of the new circular radius.
- **Kepler orbit** (`KeplerTrueAnomaly.py`). A planet moves on a fixed ellipse. The
  engine covers the module-level geometry (focus distance, semi-minor axis, plot
  limit) and the per-frame kinematics: focal radius, plotted position, angular
  momentum `h`, radial and tangential speed, and Cartesian velocity.

## How it is modelled

Square roots and trigonometry are left out.
- Every speed is handled as its square: `VisViva.SpeedSq` is `mu (2/r - 1/a)`.
- A speed that the program takes the root of appears only where a fact needs it. It is
  then a parameter `v` with `IsRoot(v, sq)`, meaning `v >= 0` and `v * v == sq`.
- The cosine and sine of an angle are parameters `c` and `s`, with `c*c + s*s == 1`.

Everything is exact `real` arithmetic in one consistent unit system. The
gravitational parameter `mu = G M` is a positive real (`VisViva.Mu`). The Kepler velocity keeps the
program's division by 1000, which converts m/s to km/s. `unit_velocity` uses the same
factor.

Modules:
- `RealArith`: ordered-field helper facts.
- `VisViva`: squared vis-viva speed.
- `Conic`: the focal radius `a(1-e^2)/(1+e cos nu)`.
- `Hohmann`: the solver and the transfer-ellipse geometry.
- `TransferSchedule`: phases, progress and linear interpolation.
- `TransferMachine`: the state `(radius, initiated, complete)` and one pure step per
  frame.
- `Kepler`: the elliptical-orbit kinematics.
- `Results`: `Ok`/`Err` for the solver's `ValueError`.

Two behaviours of the code are modelled as written. They are stated as properties.
- **Transfer ellipse direction.** The transfer ellipse always runs from the smaller
  radius at angle 0 to the larger radius at angle pi. On an inward transfer, the coast
  therefore starts at the target radius, not where burn 1 happened.
  `Hohmann.CoastMeetsBurnsOnlyOutward` proves that the coast meets both burn points
  exactly when `r1 <= r2`.
- **Radial speed.** The Kepler radial speed is `h e sin(nu) / r`, which is `v_theta e sin(nu)`
  (`Kepler.PlanetVelocity`). The speed it gives agrees with vis-viva exactly when
  `e = 0`, `sin nu = 0` (the two apsides) or `cos nu = 0`
  (`Kepler.SpeedMatchesVisVivaExactlyAt`). Everywhere else on an ellipse the two differ,
  by `mu e^3 sin^2(nu) cos(nu) (2 + e cos nu) / (a (1 - e^2))` in the squared speed.
  `Kepler.CircleMatchesVisViva` covers the circle, and
  `Kepler.EllipseSpeedDiffersFromVisViva` gives one concrete point where they differ.

The frame index is an input to `TransferMachine.Update`. The program never resets it
when the button is pressed. A press after any frame from 1579 to 1998 commits the new radius on the next frame,
which lies in the commit range 1580 to 1999. After frame 1999 the 2000-frame loop wraps
to frame 0, which is pre-burn, so the transfer then restarts from the beginning.
`TransferMachine.CommitReplacesRadius` covers every frame of the commit range.

The program does not reject a start press while a transfer runs. It only sets the
flags again, and on a reachable state they are already set
(`TransferMachine.StartDuringTransferIsNoOp`). A non-positive target is not rejected
at the press either. The solver raises on the next frame (`TransferMachine.Update`,
first ensures).

On reachable states the `not transfer_complete` guard of the commit is always true.
The invariant `initiated ==> !complete` holds (`TransferMachine.Consistent`). A second
commit is prevented because the commit clears `initiated`. `TransferMachine.CommitHappensOnce`
and `TransferMachine.CompleteFlagBlocksCommit` prove both facts.

## Model

| member | source | states |
|---|---|---|
| VisViva.SpeedSq | HohmannTransferOrbit.py:51-52 | the squared vis-viva speed is positive exactly when r < 2a and zero exactly at r = 2a; on a circle (a = r) it is mu / r, the value the solver uses for v1 and v2 |
| VisViva.SpeedSqDecreasesOutward | HohmannTransferOrbit.py:60-62 | on one orbit the squared speed does not increase with radius, and strictly decreases for a strictly larger radius |
| VisViva.BurnDirection | HohmannTransferOrbit.py:142-161 | at radius r, a conic of semi-major axis a is faster than the circle exactly when a > r, and equally fast exactly when a = r |
| Conic.Radius | KeplerTrueAnomaly.py:62 | for a > 0, 0 <= e < 1, cos nu in [-1, 1] the focal radius is positive, lies in [a(1-e), a(1+e)], equals a(1-e) at cos nu = 1 and a(1+e) at cos nu = -1, and satisfies r (1 + e cos nu) = a (1 - e^2) |
| Hohmann.CircularSpeedSq | HohmannTransferOrbit.py:94 | the idle speed `calculate_orbital_velocity(r, r)` squared is positive and equals mu / r |
| Hohmann.SemiMajor | HohmannTransferOrbit.py:116 | the transfer semi-major axis lies between the two radii, is twice their mean, and equals r1 only when r1 = r2 |
| Hohmann.Eccentricity | HohmannTransferOrbit.py:117 | the transfer eccentricity lies in [0, 1), is 0 exactly when r1 = r2, and a_t(1 - e_t) = min(r1, r2), a_t(1 + e_t) = max(r1, r2) |
| Hohmann.Solve | HohmannTransferOrbit.py:54-69 | raises exactly when a radius is non-positive; otherwise returns the circular speeds at r1 and r2 and the transfer-ellipse speeds at r1's and r2's own radii, for outward and inward transfers alike, all positive |
| Hohmann.PeriapsisIsFaster | HohmannTransferOrbit.py:60-62 | both square-root arguments are positive and the periapsis squared speed is at least the apoapsis squared speed |
| Hohmann.DeltaVSigns | HohmannTransferOrbit.py:142-161 | on the speeds themselves, dv1 = vt1 - v1 and dv2 = v2 - vt2 are both positive exactly for an outward transfer and both zero exactly when r1 = r2 |
| Hohmann.SolveSymmetric | HohmannTransferOrbit.py:66-69 | solving for (r2, r1) returns the plan for (r1, r2) read from the other end |
| Hohmann.GeometrySymmetric | HohmannTransferOrbit.py:116-117 | swapping r1 and r2 leaves a_t and e_t unchanged |
| Hohmann.TransferEndpoints | HohmannTransferOrbit.py:119-122 | the drawn transfer curve is at min(r1, r2) at angle 0 and at max(r1, r2) at angle pi |
| Hohmann.CoastMeetsBurnsOnlyOutward | HohmannTransferOrbit.py:139-157 | the coast starts at r1 (burn 1's position) and ends at r2 (burn 2's position) exactly when r1 <= r2 |
| Hohmann.CoastStaysBetweenOrbits | HohmannTransferOrbit.py:148-150 | at every coast angle the radius lies between min(r1, r2) and max(r1, r2) |
| Hohmann.DegenerateTransfer | HohmannTransferOrbit.py:58-69 | a transfer to the same radius has eccentricity 0 and four equal squared speeds mu / r |
| TransferSchedule.PhaseOf | HohmannTransferOrbit.py:134-165 | the phase the frame cascade selects owns a frame range that contains the frame |
| TransferSchedule.PhasesPartitionFrames | HohmannTransferOrbit.py:134-165 | a frame is in a phase's range exactly when the cascade selects that phase, so the ranges [0,500), [500,540), [540,1040), [1040,1080), [1080,1580), [1580,...) are disjoint and exhaustive |
| TransferSchedule.Progress | HohmannTransferOrbit.py:139-184 | progress is the fraction of its phase elapsed: start + progress * duration = frame, so it is 0 on a phase's first frame, non-negative, and below 1 in every bounded phase |
| TransferSchedule.Lerp | HohmannTransferOrbit.py:142 | the interpolated speed equals the start speed at progress 0 and the end speed at progress 1, and lies between them for progress in [0, 1] |
| TransferMachine.StartTransfer | HohmannTransferOrbit.py:71-74 | the button sets initiated, clears complete and keeps the radius |
| TransferMachine.Update | HohmannTransferOrbit.py:87-188 | a frame raises exactly for a started transfer with a non-positive target; idle frames keep the state and show the circular speed; a blank target keeps the state and draws nothing; the state changes only on a commit-range frame of a started, incomplete transfer, where the radius becomes exactly the target and the flags become complete and not initiated |
| TransferMachine.TransitionsPreserveConsistency | HohmannTransferOrbit.py:173-182 | clicks and frames keep the radius positive and never leave initiated and complete both set |
| TransferMachine.StartDuringTransferIsNoOp | HohmannTransferOrbit.py:71-74 | a start press during a transfer leaves the state unchanged |
| TransferMachine.CommitReplacesRadius | HohmannTransferOrbit.py:173-182 | on any commit-range frame of a started transfer with a positive target, the new radius is exactly the target, complete is set and initiated cleared |
| TransferMachine.CompleteFlagBlocksCommit | HohmannTransferOrbit.py:173 | with the complete flag set, no frame changes the state |
| TransferMachine.CommitHappensOnce | HohmannTransferOrbit.py:173-182 | after the committing frame, no later frame with any target changes the state again |
| TransferMachine.RampSpeedBetween | HohmannTransferOrbit.py:142-158 | a ramped speed between the roots of two squared speeds is a speed whose square lies between them |
| TransferMachine.SpeedProfileContinuous | HohmannTransferOrbit.py:137-169 | for any four solver speeds, each phase's shown speed starts where the previous phase's ends, and the post-commit speed is the post-burn one |
| TransferMachine.ManoeuvreFollowsSchedule | HohmannTransferOrbit.py:134-187 | a started transfer's frame is drawn in the phase the frame selects, at its progress; on the r1 circle up to burn 1, on the ellipse (a_t, e_t) in the coast, on the r2 circle from burn 2 on; the coast ellipse's point at angle 0, where progress 0 places the craft, is at min(r1, r2); speed v1, then ramps v1 to vt(r1), vt(r1) to vt(r2), vt(r2) to v2, then v2, each as the vis-viva squared speed at its radius |
| TransferMachine.InitialConsistent | HohmannTransferOrbit.py:9-20 | the program starts idle on the 1 AU circle, a state satisfying the invariant |
| TransferMachine.RampsStayWithinTheirPhase | HohmannTransferOrbit.py:134-169 | every frame of a started transfer with a valid target is a manoeuvre frame; speed ramps happen only in the burns and the coast, at progress in [0, 1), between positive squared speeds |
| Kepler.FocusDistance | KeplerTrueAnomaly.py:13 | the focus offset a e lies in [0, a), is 0 only for a circle, and adds to the periapsis distance to give a |
| Kepler.SemiMinorSq | KeplerTrueAnomaly.py:21 | b^2 = a^2 (1 - e^2) is positive, at most a^2 with equality only for a circle, and b^2 + (a e)^2 = a^2 |
| Kepler.PlotLimit | KeplerTrueAnomaly.py:25-26 | max(a, b) * 1.2 is always 1.2 a |
| Kepler.EllipseEquation | KeplerTrueAnomaly.py:37-39 | a focal point (r cos nu, r sin nu) with r (1 + e cos nu) = a (1 - e^2) lies on the ellipse centred a e behind the focus |
| Kepler.PlanetPosition | KeplerTrueAnomaly.py:62-64 | measured from the plotted central object (-a e, 0) the planet is at offset (r(nu) cos nu, r(nu) sin nu), hence at distance r(nu), and on the plotted ellipse |
| Kepler.ConfiguredOrbitValid | KeplerTrueAnomaly.py:9-13 | the hard-coded orbit (e = 0.2056, a = 0.387098) is a genuine ellipse, so the engine's requirements hold and the focus offset is positive |
| Kepler.AngularMomentumSq | KeplerTrueAnomaly.py:67 | h^2 = mu a (1 - e^2) is positive, mu times the focal radius at nu = 90 degrees, and at most mu a with equality only for a circle |
| Kepler.RotationKeepsLength | KeplerTrueAnomaly.py:74-75 | rotating (v_r, v_t) by nu preserves its squared length |
| Kepler.PlanetVelocity | KeplerTrueAnomaly.py:69-85 | v_t is positive with r v_t = h; the squared magnitude is (v_r^2 + v_t^2) / 1000^2 and positive, so the normalising divisions are defined; v_r = v_t e sin nu (that is, h e sin(nu) / r) and is 0 exactly on a circle or at an apsis; (vx, vy) is (v_r, v_t) rotated by +nu and divided by 1000, stated as its projections onto (cos nu, sin nu) and (-sin nu, cos nu), which give back v_r / 1000 and v_t / 1000 |
| Kepler.UnitVelocitySq | KeplerTrueAnomaly.py:19 | unit_velocity squared, scaled back by 1000^2, is the circular vis-viva speed mu / a |
| Kepler.CircleMatchesVisViva | KeplerTrueAnomaly.py:71-80 | on a circle v_r = 0 and the shown squared magnitude equals unit_velocity squared at every anomaly |
| Kepler.SpeedMatchesVisVivaExactlyAt | KeplerTrueAnomaly.py:67-80 | for every ellipse and anomaly, v_r^2 + v_t^2 equals the vis-viva squared speed mu (2/r - 1/a) exactly when e = 0, sin nu = 0 or cos nu = 0 |
| Kepler.EllipseSpeedDiffersFromVisViva | KeplerTrueAnomaly.py:71-72 | for mu = 1, a = 1, e = 0.6, cos nu = 0.6, sin nu = 0.8 the squared speed from h e sin(nu)/r and h/r differs from vis-viva |

## Left out

- Drawing and UI are not modelled: figures, markers, quiver arrows, texts, legends, the
  TextBox and Button widgets, and `FuncAnimation` timing and looping. They are output
  and input, not logic.
- The text box is modelled as blank or holding a number. The `ValueError` that
  `float()` raises on other text is not modelled, because parsing is input handling.
- `np.sqrt`, `np.cos`, `np.sin`, `np.arctan` and `np.tan` are not modelled. Speeds are
  squared speeds. Angles enter only as cosine and sine parameters.
- The angles fed to cos/sin for drawing are not modelled: the idle sweep, the
  pre-burn and post-burn sweeps, the coast angle `pi * progress` and the post-commit
  angle. The coast is modelled as a position on the transfer ellipse at an unspecified
  angle.
- The conversion from eccentric to true anomaly (`nu`) is purely transcendental. The
  Kepler frame takes its cosine and sine as parameters instead.
- The period and `omega` are left out. They involve pi and a square root, and `omega`
  is never used.
- The unused `inward_transfer` flag is left out.
- The display-only scaling of the velocity arrows is left out. For the Kepler arrow the
  model keeps only the fact that its divisor is positive.
- Units are not modelled. AU, metres and the `AU_TO_M` conversions are replaced by one
  length unit, and floating-point rounding by exact reals.
- The values of `G` and `M` are not modelled. `mu = G M` is a parameter, and every
  property holds for any positive `mu`.
- The frame index is any natural number. The animation's own 2000-frame loop bound is
  not modelled.
- VisViva.SpeedSq: requires a positive radius and semi-major axis. The only caller
  passes the current circular radius, which `TransferMachine.TransitionsPreserveConsistency`
  shows stays positive. Division by zero and the NaN of a negative root are not modelled.
- Kepler.PlanetVelocity: takes `h` as a positive parameter whose square is `mu a (1 - e^2)`,
  instead of computing the square root.

=== FILE: conic.dfy ===
/**
 * Focus-centred polar form of an ellipse, r = a (1 - e^2) / (1 + e cos nu), shared by
 * the Hohmann transfer arc and the Kepler orbit. `c` stands for cos nu.
 */
module Conic {
  import opened RealArith

  /** A closed orbit: positive semi-major axis and eccentricity in [0, 1). */
  predicate ValidEllipse(a: real, e: real) {
    a > 0.0 && 0.0 <= e < 1.0
  }

  /** A cosine value. */
  predicate IsCosine(c: real) {
    -1.0 <= c <= 1.0
  }

  /** The denominator 1 + e c lies between 1 - e > 0 and 1 + e. */
  lemma DenominatorBounds(e: real, c: real)
    requires 0.0 <= e < 1.0 && IsCosine(c)
    ensures 1.0 - e <= 1.0 + e * c <= 1.0 + e
    ensures 1.0 + e * c > 0.0
  {
    MulLe(e, -1.0, c);
    MulLe(e, c, 1.0);
  }

  /** Bounds of the quotient a (1 - e^2) / d for a denominator d in [1 - e, 1 + e]. */
  lemma QuotientBounds(a: real, e: real, d: real)
    requires ValidEllipse(a, e) && 1.0 - e <= d <= 1.0 + e
    ensures a * (1.0 - e) <= a * (1.0 - e * e) / d <= a * (1.0 + e)
    ensures d == 1.0 + e ==> a * (1.0 - e * e) / d == a * (1.0 - e)
    ensures d == 1.0 - e ==> a * (1.0 - e * e) / d == a * (1.0 + e)
  {
    var n := a * (1.0 - e * e);
    assert n == (a * (1.0 - e)) * (1.0 + e);
    assert n == (a * (1.0 + e)) * (1.0 - e);
    MulLe(a * (1.0 - e), d, 1.0 + e);
    MulLe(a * (1.0 + e), 1.0 - e, d);
    DivBetween(n, d, a * (1.0 - e), a * (1.0 + e));
  }

  /**
   * Distance from the focus at true anomaly nu (c = cos nu). It is positive, lies between
   * periapsis a (1 - e) and apoapsis a (1 + e), reaches periapsis at nu = 0 and apoapsis
   * at nu = pi, and satisfies the polar equation r (1 + e cos nu) = a (1 - e^2).
   */
  function Radius(a: real, e: real, c: real): (r: real)
    requires ValidEllipse(a, e) && IsCosine(c)
    ensures r > 0.0
    ensures a * (1.0 - e) <= r <= a * (1.0 + e)
    ensures c == 1.0 ==> r == a * (1.0 - e)
    ensures c == -1.0 ==> r == a * (1.0 + e)
    ensures r * (1.0 + e * c) == a * (1.0 - e * e)
  {
    DenominatorBounds(e, c);
    QuotientBounds(a, e, 1.0 + e * c);
    a * (1.0 - e * e) / (1.0 + e * c)
  }
}

=== FILE: hohmann.dfy ===
/**
 * The Hohmann transfer solver and transfer-ellipse geometry of the transfer animation:
 * `calculate_orbital_velocity`, `calculate_hohmann_velocities` and the ellipse that
 * `update` draws and flies along. Speeds are squared speeds.
 */
module Hohmann {
  import opened Results
  import opened RealArith
  import opened VisViva
  import opened Conic

  /**
   * The four squared speeds the solver returns, in its order: circular speed at r1,
   * transfer-ellipse speed at r1, transfer-ellipse speed at r2, circular speed at r2.
   */
  datatype TransferSpeeds = TransferSpeeds(circular1: real, transfer1: real, transfer2: real, circular2: real)
  {
    /** The same plan seen from the other endpoint. */
    function Reversed(): TransferSpeeds {
      TransferSpeeds(circular2, transfer2, transfer1, circular1)
    }
  }

  /** Squared speed on a circular orbit of radius `r` (`calculate_orbital_velocity(r, r)`). */
  function CircularSpeedSq(mu: Mu, r: real): (v2: real)
    requires r > 0.0
    ensures v2 > 0.0
    ensures v2 * r == mu
  {
    SpeedSq(mu, r, r)
  }

  /** Semi-major axis of the ellipse tangent to both circles: it spans from r1 to r2. */
  function SemiMajor(r1: real, r2: real): (a: real)
    requires r1 > 0.0 && r2 > 0.0
    ensures Min(r1, r2) <= a <= Max(r1, r2)
    ensures a == r1 <==> r1 == r2
    ensures 2.0 * a == r1 + r2
  {
    (r1 + r2) / 2.0
  }

  /**
   * Eccentricity of the transfer ellipse. It is a closed-orbit eccentricity, zero exactly
   * for the degenerate transfer, and puts periapsis at the smaller radius and apoapsis at
   * the larger one whichever way the transfer goes.
   */
  function Eccentricity(r1: real, r2: real): (e: real)
    requires r1 > 0.0 && r2 > 0.0
    ensures 0.0 <= e < 1.0
    ensures e == 0.0 <==> r1 == r2
    ensures SemiMajor(r1, r2) * (1.0 - e) == Min(r1, r2)
    ensures SemiMajor(r1, r2) * (1.0 + e) == Max(r1, r2)
  {
    var e := Abs(r2 - r1) / (r2 + r1);
    assert e * (r2 + r1) == Abs(r2 - r1);
    DivBetween(Abs(r2 - r1), r2 + r1, 0.0, 1.0);
    assert e != 1.0;
    e
  }

  /**
   * `calculate_hohmann_velocities`: raises for a non-positive radius; otherwise returns
   * the circular speeds at r1 and r2 and the transfer-ellipse speeds at r1's and r2's own
   * radii (the solver picks periapsis or apoapsis speed by the direction of the transfer).
   * Every speed it takes a root of is positive.
   */
  function Solve(mu: Mu, r1: real, r2: real): (res: Result<TransferSpeeds>)
    ensures res.Err? <==> r1 <= 0.0 || r2 <= 0.0
    ensures res.Ok? ==>
      var a := SemiMajor(r1, r2);
      && res.value.circular1 == SpeedSq(mu, r1, r1)
      && res.value.transfer1 == SpeedSq(mu, r1, a)
      && res.value.transfer2 == SpeedSq(mu, r2, a)
      && res.value.circular2 == SpeedSq(mu, r2, r2)
    ensures res.Ok? ==>
      res.value.circular1 > 0.0 && res.value.transfer1 > 0.0 &&
      res.value.transfer2 > 0.0 && res.value.circular2 > 0.0
  {
    if r1 <= 0.0 || r2 <= 0.0 then
      Err("Orbit radius must be greater than 0")
    else
      var v1 := mu / r1;
      var a := SemiMajor(r1, r2);
      var periapsis := SpeedSq(mu, Min(r1, r2), a);
      var apoapsis := SpeedSq(mu, Max(r1, r2), a);
      var v2 := mu / r2;
      PeriapsisIsFaster(mu, r1, r2);
      if r1 > r2 then
        Ok(TransferSpeeds(v1, apoapsis, periapsis, v2))
      else
        Ok(TransferSpeeds(v1, periapsis, apoapsis, v2))
  }

  /**
   * Both square-root arguments of the solver are positive for positive radii, and the
   * periapsis speed is at least the apoapsis speed.
   */
  lemma PeriapsisIsFaster(mu: Mu, r1: real, r2: real)
    requires r1 > 0.0 && r2 > 0.0
    ensures SpeedSq(mu, Min(r1, r2), SemiMajor(r1, r2)) > 0.0
    ensures SpeedSq(mu, Max(r1, r2), SemiMajor(r1, r2)) > 0.0
    ensures SpeedSq(mu, Min(r1, r2), SemiMajor(r1, r2)) >= SpeedSq(mu, Max(r1, r2), SemiMajor(r1, r2))
  {
    SpeedSqDecreasesOutward(mu, Min(r1, r2), Max(r1, r2), SemiMajor(r1, r2));
  }

  /**
   * Signs of the two burns, on the speeds themselves (`dv1 = vt1 - v1`, `dv2 = v2 - vt2`,
   * each speed the root of the solver's squared speed): an outward transfer speeds up at
   * both burns, an inward one slows down at both, and a transfer to the same radius has
   * both burns zero.
   */
  lemma DeltaVSigns(mu: Mu, r1: real, r2: real, v1: real, vt1: real, vt2: real, v2: real)
    requires r1 > 0.0 && r2 > 0.0
    requires IsRoot(v1, Solve(mu, r1, r2).value.circular1)
    requires IsRoot(vt1, Solve(mu, r1, r2).value.transfer1)
    requires IsRoot(vt2, Solve(mu, r1, r2).value.transfer2)
    requires IsRoot(v2, Solve(mu, r1, r2).value.circular2)
    ensures vt1 - v1 > 0.0 <==> r1 < r2
    ensures vt1 - v1 == 0.0 <==> r1 == r2
    ensures v2 - vt2 > 0.0 <==> r1 < r2
    ensures v2 - vt2 == 0.0 <==> r1 == r2
  {
    var a := SemiMajor(r1, r2);
    BurnDirection(mu, r1, a);
    BurnDirection(mu, r2, a);
    RootsOrdered(vt1, SpeedSq(mu, r1, a), v1, SpeedSq(mu, r1, r1));
    RootsOrdered(v2, SpeedSq(mu, r2, r2), vt2, SpeedSq(mu, r2, a));
  }

  /** Solving for (r2, r1) gives the same plan as (r1, r2) read from the other end. */
  lemma SolveSymmetric(mu: Mu, r1: real, r2: real)
    requires r1 > 0.0 && r2 > 0.0
    ensures Solve(mu, r2, r1) == Ok(Solve(mu, r1, r2).value.Reversed())
  {
    assert SemiMajor(r2, r1) == SemiMajor(r1, r2);
  }

  /** Swapping the radii leaves the transfer ellipse unchanged. */
  lemma GeometrySymmetric(r1: real, r2: real)
    requires r1 > 0.0 && r2 > 0.0
    ensures SemiMajor(r2, r1) == SemiMajor(r1, r2)
    ensures Eccentricity(r2, r1) == Eccentricity(r1, r2)
  {
    assert Abs(r1 - r2) == Abs(r2 - r1);
  }

  /**
   * The transfer curve drawn by `update` (angle 0 to pi) runs from the smaller radius to
   * the larger one.
   */
  lemma TransferEndpoints(r1: real, r2: real)
    requires r1 > 0.0 && r2 > 0.0
    ensures Radius(SemiMajor(r1, r2), Eccentricity(r1, r2), 1.0) == Min(r1, r2)
    ensures Radius(SemiMajor(r1, r2), Eccentricity(r1, r2), -1.0) == Max(r1, r2)
  {}

  /**
   * Because of that, the coast starts where the first burn happened (r1) and ends where the
   * second burn happens (r2) exactly when the transfer is not inward; an inward transfer
   * starts its coast at the target radius.
   */
  lemma CoastMeetsBurnsOnlyOutward(r1: real, r2: real)
    requires r1 > 0.0 && r2 > 0.0
    ensures Radius(SemiMajor(r1, r2), Eccentricity(r1, r2), 1.0) == r1 <==> r1 <= r2
    ensures Radius(SemiMajor(r1, r2), Eccentricity(r1, r2), -1.0) == r2 <==> r1 <= r2
  {
    TransferEndpoints(r1, r2);
  }

  /** Along the whole coast the craft stays between the two circular orbits. */
  lemma CoastStaysBetweenOrbits(r1: real, r2: real, c: real)
    requires r1 > 0.0 && r2 > 0.0 && IsCosine(c)
    ensures Min(r1, r2) <= Radius(SemiMajor(r1, r2), Eccentricity(r1, r2), c) <= Max(r1, r2)
  {}

  /** A transfer to the current radius is a circle with four equal speeds. */
  lemma DegenerateTransfer(mu: Mu, r: real)
    requires r > 0.0
    ensures Eccentricity(r, r) == 0.0
    ensures Solve(mu, r, r) == Ok(TransferSpeeds(mu / r, mu / r, mu / r, mu / r))
  {}
}

=== FILE: kepler.dfy ===
/**
 * The geometry and per-frame kinematics of the elliptical-orbit animation. The true
 * anomaly enters as its cosine `c` and sine `s`; speeds are compared as squares.
 */
module Kepler {
  import opened RealArith
  import opened VisViva
  import opened Conic

  /** The hard-coded orbit (Mercury-like): eccentricity and semi-major axis in AU. */
  const Eccentricity: real := 0.2056
  const SemiMajorAxis: real := 0.387098
  /** Margin of the plot window around the orbit (`padding_factor`). */
  const PaddingFactor: real := 1.2
  /** Velocities are shown in km/s: the m/s components are divided by this. */
  const MetresPerKilometre: real := 1000.0

  /**
   * The hard-coded orbit meets every requirement of the engine: it is a genuine ellipse
   * (not a circle), so its focus sits a positive distance from the centre.
   */
  lemma ConfiguredOrbitValid()
    ensures ValidEllipse(SemiMajorAxis, Eccentricity) && Eccentricity > 0.0
    ensures FocusDistance(SemiMajorAxis, Eccentricity) > 0.0
  {}

  /** `(c, s)` is (cos nu, sin nu) for some angle nu. */
  predicate IsDirection(c: real, s: real) {
    IsCosine(c) && -1.0 <= s <= 1.0 && c * c + s * s == 1.0
  }

  /**
   * `focus_distance = a e`: the distance from the ellipse's centre to the focus, so that
   * adding it to the periapsis distance gives the semi-major axis.
   */
  function FocusDistance(a: real, e: real): (d: real)
    requires ValidEllipse(a, e)
    ensures 0.0 <= d < a
    ensures d == 0.0 <==> e == 0.0
    ensures Radius(a, e, 1.0) + d == a
  {
    MulLt(a, e, 1.0);
    a * e
  }

  /** The factor 1 - e^2 of a closed orbit lies in (0, 1], and is 1 only for a circle. */
  lemma ShapeFactor(e: real)
    requires 0.0 <= e < 1.0
    ensures 0.0 < 1.0 - e * e <= 1.0
    ensures 1.0 - e * e == 1.0 <==> e == 0.0
  {
    SquareLt(e, 1.0);
    SquareOrder(e, 0.0);
  }

  /**
   * Square of `semi_minor_axis = a sqrt(1 - e^2)`: positive, at most a^2 (equal only for a
   * circle), and with the focus distance it satisfies b^2 + (a e)^2 = a^2.
   */
  function SemiMinorSq(a: real, e: real): (b2: real)
    requires ValidEllipse(a, e)
    ensures 0.0 < b2 <= a * a
    ensures b2 == a * a <==> e == 0.0
    ensures b2 + FocusDistance(a, e) * FocusDistance(a, e) == a * a
  {
    ShapeFactor(e);
    PositiveSq(a);
    ScaleFraction(Sq(a), 1.0 - e * e);
    assert FocusDistance(a, e) * FocusDistance(a, e) == (a * a) * (e * e);
    a * a * (1.0 - e * e)
  }

  /**
   * `plot_limit = max(a, b) * padding_factor`, where `b` is the semi-minor axis: the
   * semi-major axis always wins, so the limit is the padded semi-major axis.
   */
  function PlotLimit(a: real, e: real, b: real): (limit: real)
    requires ValidEllipse(a, e)
    requires b >= 0.0 && b * b == SemiMinorSq(a, e)
    ensures limit == PaddingFactor * a
  {
    SquareOrder(b, a);
    Max(a, b) * PaddingFactor
  }

  datatype Point = Point(x: real, y: real)

  /** Where the central object is drawn: the plot frame puts it at (-a e, 0). */
  function CentralObject(a: real, e: real): Point
    requires ValidEllipse(a, e)
  {
    Point(-FocusDistance(a, e), 0.0)
  }

  /**
   * With r (1 + e c) = a (1 - e^2) and c^2 + s^2 = 1, the focus-centred point (r c, r s)
   * lies on the ellipse of semi-axes a and b centred a e behind the focus.
   */
  lemma EllipseEquation(a: real, e: real, c: real, s: real, r: real)
    requires c * c + s * s == 1.0
    requires r * (1.0 + e * c) == a * (1.0 - e * e)
    ensures (1.0 - e * e) * (r * c + a * e) * (r * c + a * e) + r * s * (r * s)
            == a * a * (1.0 - e * e)
  {
    var k := 1.0 - e * e;
    calc {
      k * (r * c + a * e) * (r * c + a * e) + r * s * (r * s);
    ==
      k * r * r * c * c + 2.0 * k * a * e * c * r + k * a * a * e * e + r * r * (s * s);
    == { assert s * s == 1.0 - c * c; }
      r * r * (1.0 - e * c) * (1.0 + e * c) + 2.0 * k * a * e * c * r + k * a * a * e * e;
    ==
      (r * (1.0 + e * c)) * r * (1.0 - e * c) + 2.0 * k * a * e * c * r + k * a * a * e * e;
    ==
      (a * k) * r * (1.0 - e * c) + 2.0 * k * a * e * c * r + k * a * a * e * e;
    ==
      (a * k) * (r * (1.0 + e * c)) + k * a * a * e * e;
    ==
      (a * k) * (a * k) + k * a * a * e * e;
    ==
      a * a * k * (k + e * e);
    ==
      a * a * k;
    }
  }

  /**
   * The planet's plotted position at true anomaly nu. Measured from the plotted central
   * object it is at the focal distance r(nu), and it lies on the ellipse
   * b^2 (x + a e)^2 + a^2 y^2 = a^2 b^2 around the centre: the engine's frame is
   * focus-centred and shifted by the focus distance.
   */
  function PlanetPosition(a: real, e: real, c: real, s: real): (p: Point)
    requires ValidEllipse(a, e) && IsDirection(c, s)
    ensures var dx := p.x - CentralObject(a, e).x;
            var dy := p.y - CentralObject(a, e).y;
            && dx == Radius(a, e, c) * c && dy == Radius(a, e, c) * s
            && dx * dx + dy * dy == Radius(a, e, c) * Radius(a, e, c)
            && SemiMinorSq(a, e) * (dx + FocusDistance(a, e)) * (dx + FocusDistance(a, e)) + a * a * (dy * dy)
               == a * a * SemiMinorSq(a, e)
  {
    var r := Radius(a, e, c);
    OffsetLength(r, c, s);
    EllipseEquation(a, e, c, s, r);
    Point(r * c - FocusDistance(a, e), r * s)
  }

  /** The offset (r cos nu, r sin nu) has length r. */
  lemma OffsetLength(r: real, c: real, s: real)
    requires c * c + s * s == 1.0
    ensures (r * c) * (r * c) + (r * s) * (r * s) == r * r
  {
    calc {
      (r * c) * (r * c) + (r * s) * (r * s);
    ==
      (r * r) * (c * c + s * s);
    }
  }

  /**
   * Square of the specific angular momentum `h = sqrt(mu a (1 - e^2))`: mu times the
   * semi-latus rectum (the focal distance at nu = 90 degrees), positive, and at most the
   * circular value mu a, which it reaches only on a circle.
   */
  function AngularMomentumSq(mu: Mu, a: real, e: real): (h2: real)
    requires ValidEllipse(a, e)
    ensures h2 > 0.0
    ensures h2 == mu * Radius(a, e, 0.0)
    ensures h2 <= mu * a
    ensures h2 == mu * a <==> e == 0.0
  {
    ShapeFactor(e);
    ScaleFraction(mu * a, 1.0 - e * e);
    mu * a * (1.0 - e * e)
  }

  /**
   * Velocity of the planet: radial and tangential speeds (m/s) and the Cartesian
   * components (km/s).
   */
  datatype Velocity = Velocity(radial: real, tangential: real, vx: real, vy: real)

  /** Square of `velocity_magnitude`. */
  function MagnitudeSq(v: Velocity): real {
    v.vx * v.vx + v.vy * v.vy
  }

  /** Rotating (u, w) by an angle keeps its length. */
  lemma RotationKeepsLength(u: real, w: real, c: real, s: real)
    requires c * c + s * s == 1.0
    ensures (u * c - w * s) * (u * c - w * s) + (u * s + w * c) * (u * s + w * c) == u * u + w * w
  {
    calc {
      (u * c - w * s) * (u * c - w * s) + (u * s + w * c) * (u * s + w * c);
    ==
      u * u * (c * c + s * s) + w * w * (c * c + s * s);
    ==
      u * u + w * w;
    }
  }

  /**
   * Undoing the rotation: projecting the scaled vector (X, Y) = (u c - w s, u s + w c) / k
   * back onto the directions (c, s) and (-s, c) recovers u and w.
   */
  lemma RotationInverse(u: real, w: real, c: real, s: real, k: real, bigX: real, bigY: real)
    requires c * c + s * s == 1.0 && k > 0.0
    requires bigX * k == u * c - w * s && bigY * k == u * s + w * c
    ensures (bigX * c + bigY * s) * k == u
    ensures (bigY * c - bigX * s) * k == w
  {
    calc {
      (bigX * c + bigY * s) * k;
    ==
      (bigX * k) * c + (bigY * k) * s;
    ==
      (u * c - w * s) * c + (u * s + w * c) * s;
    ==
      u * (c * c + s * s);
    }
    calc {
      (bigY * c - bigX * s) * k;
    ==
      (bigY * k) * c - (bigX * k) * s;
    ==
      (u * s + w * c) * c - (u * c - w * s) * s;
    ==
      w * (c * c + s * s);
    }
  }

  /** Dividing both components by the same factor divides the squared length by its square. */
  lemma ScaledLength(x: real, y: real, k: real)
    requires k > 0.0
    ensures (x / k) * (x / k) + (y / k) * (y / k) == (x * x + y * y) / (k * k)
  {
    var p := x / k;
    var q := y / k;
    assert p * k == x && q * k == y;
    assert (p * p + q * q) * (k * k) == (p * k) * (p * k) + (q * k) * (q * k);
    SquareLt(0.0, k);
  }

  /** v_theta = h / r is positive and r v_theta = h. */
  lemma TangentialSpeed(h: real, r: real)
    requires h > 0.0 && r > 0.0
    ensures h / r > 0.0 && h / r * r == h
  {}

  /** v_r = h e sin(nu) / r is zero exactly when e = 0 or sin(nu) = 0. */
  lemma RadialSpeedVanishes(h: real, e: real, s: real, r: real)
    requires h > 0.0 && r > 0.0
    ensures h * (e * s) / r == 0.0 <==> e == 0.0 || s == 0.0
  {
    ZeroProduct(e, s);
    ZeroProduct(h, e * s);
    assert h * (e * s) / r * r == h * (e * s);
  }

  /** A vector with a positive component has a positive squared length, at any scale. */
  lemma PositiveMagnitude(u: real, w: real, k: real)
    requires w > 0.0 && k > 0.0
    ensures (u * u + w * w) / k > 0.0
  {
    PositiveSq(w);
    assert u * u == Sq(u) >= 0.0 by { SquareNonNegative(u); }
  }

  /**
   * The per-frame velocity of `update`: v_r = h e sin(nu) / r, v_theta = h / r, rotated
   * into Cartesian components and divided by 1000. The tangential speed is positive and
   * carries the angular momentum (r v_theta = h); the Cartesian vector is (v_r, v_theta)
   * rotated by +nu, so projecting it back onto (cos nu, sin nu) and (-sin nu, cos nu)
   * recovers v_r / 1000 and v_theta / 1000, and its squared magnitude is
   * (v_r^2 + v_theta^2) / 1000^2 > 0, so the normalising divisions are well defined; the
   * radial speed vanishes exactly on a circle or at an apsis.
   */
  function PlanetVelocity(mu: Mu, a: real, e: real, c: real, s: real, h: real): (v: Velocity)
    requires ValidEllipse(a, e) && IsDirection(c, s)
    requires h > 0.0 && h * h == AngularMomentumSq(mu, a, e)
    ensures v.tangential > 0.0
    ensures v.tangential * Radius(a, e, c) == h
    ensures MagnitudeSq(v) * (MetresPerKilometre * MetresPerKilometre)
            == v.radial * v.radial + v.tangential * v.tangential
    ensures MagnitudeSq(v) > 0.0
    ensures v.radial == 0.0 <==> e == 0.0 || s == 0.0
    ensures v.radial == v.tangential * (e * s)
    ensures (v.vx * c + v.vy * s) * MetresPerKilometre == v.radial
    ensures (v.vy * c - v.vx * s) * MetresPerKilometre == v.tangential
  {
    var r := Radius(a, e, c);
    var radial := h * (e * s) / r;
    var tangential := h / r;
    var ux := radial * c - tangential * s;
    var uy := radial * s + tangential * c;
    RotationKeepsLength(radial, tangential, c, s);
    ScaledLength(ux, uy, MetresPerKilometre);
    TangentialSpeed(h, r);
    RadialSpeedVanishes(h, e, s, r);
    PositiveMagnitude(radial, tangential, MetresPerKilometre * MetresPerKilometre);
    RotationInverse(radial, tangential, c, s, MetresPerKilometre,
                    ux / MetresPerKilometre, uy / MetresPerKilometre);
    Velocity(radial, tangential, ux / MetresPerKilometre, uy / MetresPerKilometre)
  }

  /** Square of `unit_velocity = sqrt(mu / a) / 1000`: the circular speed in km/s. */
  function UnitVelocitySq(mu: Mu, a: real): (u2: real)
    requires a > 0.0
    ensures u2 * (MetresPerKilometre * MetresPerKilometre) == SpeedSq(mu, a, a)
  {
    mu / a / (MetresPerKilometre * MetresPerKilometre)
  }

  /**
   * On a circle the engine's velocity agrees with vis-viva: no radial component, and the
   * shown magnitude is `unit_velocity` at every anomaly.
   */
  lemma CircleMatchesVisViva(mu: Mu, a: real, c: real, s: real, h: real)
    requires a > 0.0 && IsDirection(c, s)
    requires h > 0.0 && h * h == AngularMomentumSq(mu, a, 0.0)
    ensures PlanetVelocity(mu, a, 0.0, c, s, h).radial == 0.0
    ensures MagnitudeSq(PlanetVelocity(mu, a, 0.0, c, s, h)) == UnitVelocitySq(mu, a)
  {
    var v := PlanetVelocity(mu, a, 0.0, c, s, h);
    assert Radius(a, 0.0, c) == a;
    assert v.tangential * a == h;
    assert v.tangential * v.tangential * (a * a) == mu * a;
    assert v.tangential * v.tangential == mu / a;
  }

  /**
   * One point where the engine's speed and vis-viva differ: for mu = 1, a = 1, e = 0.6
   * at cos nu = 0.6, sin nu = 0.8 (h = 0.8) its speed squared is 3.555856 where vis-viva
   * gives 3.25.
   */
  lemma EllipseSpeedDiffersFromVisViva()
    ensures AngularMomentumSq(1.0, 1.0, 0.6) == 0.8 * 0.8
    ensures var v := PlanetVelocity(1.0, 1.0, 0.6, 0.6, 0.8, 0.8);
            v.radial * v.radial + v.tangential * v.tangential
            != SpeedSq(1.0, Radius(1.0, 0.6, 0.6), 1.0)
  {
    var r := Radius(1.0, 0.6, 0.6);
    assert r == 8.0 / 17.0;
    var v := PlanetVelocity(1.0, 1.0, 0.6, 0.6, 0.8, 0.8);
    assert v.tangential == 1.7;
    assert v.radial == 0.816;
    assert SpeedSq(1.0, r, 1.0) == 3.25;
  }

  /** With p = a(1 - e^2) = r (1 + e cos nu), the vis-viva squared speed times p is mu (1 + 2 e cos nu + e^2). */
  lemma VisVivaOverSemiLatus(mu: Mu, a: real, e: real, c: real, r: real, p: real)
    requires a > 0.0 && r > 0.0 && 1.0 + e * c > 0.0
    requires p == a * (1.0 - e * e) && r * (1.0 + e * c) == p
    ensures p * SpeedSq(mu, r, a) == mu * (1.0 + 2.0 * e * c + e * e)
  {
    assert p / r == 1.0 + e * c;
    assert p / a == 1.0 - e * e;
    calc {
      p * SpeedSq(mu, r, a);
    ==
      p * (mu * (2.0 / r - 1.0 / a));
    ==
      mu * (2.0 * (p / r) - p / a);
    ==
      mu * (2.0 * (1.0 + e * c) - (1.0 - e * e));
    }
  }

  /** With r v_theta = h, h^2 = mu p and p = r (1 + e cos nu): v_theta^2 p = mu (1 + e cos nu)^2. */
  lemma TangentialOverSemiLatus(mu: Mu, h: real, vt: real, r: real, p: real, q: real)
    requires p > 0.0 && vt * r == h && h * h == mu * p && r * q == p
    ensures vt * vt * p == mu * (q * q)
  {
    assert vt * p == h * q by {
      calc {
        vt * p;
      ==
        vt * (r * q);
      ==
        (vt * r) * q;
      }
    }
    assert (vt * vt * p) * p == (mu * (q * q)) * p by {
      calc {
        (vt * vt * p) * p;
      ==
        (vt * p) * (vt * p);
      ==
        (h * q) * (h * q);
      ==
        (h * h) * (q * q);
      ==
        (mu * p) * (q * q);
      }
    }
    if vt * vt * p < mu * (q * q) {
      MulLt(p, vt * vt * p, mu * (q * q));
    } else if vt * vt * p > mu * (q * q) {
      MulLt(p, mu * (q * q), vt * vt * p);
    }
  }

  /**
   * Over the vis-viva value, the engine's squared speed (1 + e^2 sin^2 nu) v_theta^2 exceeds
   * it by mu e^3 sin^2 nu cos nu (2 + e cos nu) / p.
   */
  lemma SpeedGap(mu: real, e: real, c: real, s: real, q: real, k: real)
    requires c * c + s * s == 1.0 && q == 1.0 + e * c && k == e * s
    ensures mu * (q * q) * (1.0 + k * k) - mu * (1.0 + 2.0 * e * c + e * e)
            == mu * (e * e * e) * (s * s) * c * (2.0 + e * c)
  {
    assert q * q * (1.0 + k * k) - (1.0 + 2.0 * e * c + e * e)
           == (e * e * e) * (s * s) * c * (2.0 + e * c) by {
      calc {
        q * q * (1.0 + k * k) - (1.0 + 2.0 * e * c + e * e);
      == { assert k * k == e * e * (s * s); }
        q * q + q * q * e * e * (s * s) - (q * q + e * e * (s * s));
      == { assert q * q - 1.0 == e * c * (2.0 + e * c); }
        e * e * (s * s) * (e * c * (2.0 + e * c));
      }
    }
  }

  /** The gap mu e^3 sin^2 nu cos nu (2 + e cos nu) is zero exactly at e = 0, sin nu = 0 or cos nu = 0. */
  lemma GapVanishes(mu: Mu, e: real, c: real, s: real)
    requires 0.0 <= e < 1.0 && -1.0 <= c <= 1.0
    ensures mu * (e * e * e) * (s * s) * c * (2.0 + e * c) == 0.0
            <==> e == 0.0 || s == 0.0 || c == 0.0
  {
    DenominatorBounds(e, c);
    assert 2.0 + e * c > 0.0;
    ZeroProduct(e, e);
    ZeroProduct(e * e, e);
    ZeroProduct(s, s);
    ZeroProduct(mu, e * e * e);
    ZeroProduct(mu * (e * e * e), s * s);
    ZeroProduct(mu * (e * e * e) * (s * s), c);
    ZeroProduct(mu * (e * e * e) * (s * s) * c, 2.0 + e * c);
  }

  /** The scaled speeds mu q^2 (1 + k^2) and mu (1 + 2 e c + e^2) agree exactly at e = 0, s = 0 or c = 0. */
  lemma GapZero(mu: Mu, e: real, c: real, s: real, q: real, k: real)
    requires 0.0 <= e < 1.0 && -1.0 <= c <= 1.0 && c * c + s * s == 1.0
    requires q == 1.0 + e * c && k == e * s
    ensures mu * (q * q) * (1.0 + k * k) - mu * (1.0 + 2.0 * e * c + e * e) == 0.0
            <==> e == 0.0 || s == 0.0 || c == 0.0
  {
    SpeedGap(mu, e, c, s, q, k);
    GapVanishes(mu, e, c, s);
  }

  /** With v_r = v_theta k, the squared speed is v_theta^2 (1 + k^2). */
  lemma RadialSpeedSquared(vr: real, vt: real, k: real)
    requires vr == vt * k
    ensures vr * vr + vt * vt == (vt * vt) * (1.0 + k * k)
  {
    calc {
      vr * vr + vt * vt;
    ==
      (vt * k) * (vt * k) + vt * vt;
    ==
      (vt * vt) * (k * k) + (vt * vt) * 1.0;
    }
  }

  /** With v_r = v_theta k and v_theta^2 p = w, p (v_r^2 + v_theta^2) = w (1 + k^2). */
  lemma EngineScaled(p: real, vr: real, vt: real, k: real, w: real)
    requires vr == vt * k && vt * vt * p == w
    ensures p * (vr * vr + vt * vt) == w * (1.0 + k * k)
  {
    RadialSpeedSquared(vr, vt, k);
    calc {
      p * (vr * vr + vt * vt);
    ==
      p * ((vt * vt) * (1.0 + k * k));
    ==
      (vt * vt * p) * (1.0 + k * k);
    }
  }

  /**
   * For p > 0 with p x = X and p y = Y, x = y exactly when X - Y vanishes, hence exactly
   * when any condition equivalent to that holds.
   */
  lemma CancelPositive(p: real, x: real, y: real, bigX: real, bigY: real, cond: bool)
    requires p > 0.0 && p * x == bigX && p * y == bigY
    requires bigX - bigY == 0.0 <==> cond
    ensures x == y <==> cond
  {
    if x < y {
      MulLt(p, x, y);
    } else if x > y {
      MulLt(p, y, x);
    }
  }

  /**
   * The algebra of the comparison: with v_r = v_theta e sin nu, v_theta^2 p = mu q^2 and
   * p vis = mu (1 + 2 e cos nu + e^2), the squared speed equals vis exactly when
   * e = 0, sin nu = 0 or cos nu = 0.
   */
  lemma SpeedAgreement(mu: Mu, e: real, c: real, s: real, p: real, q: real, k: real,
                       vr: real, vt: real, vis: real)
    requires 0.0 <= e < 1.0 && -1.0 <= c <= 1.0 && c * c + s * s == 1.0
    requires p > 0.0 && q == 1.0 + e * c && k == e * s
    requires vr == vt * k && vt * vt * p == mu * (q * q)
    requires p * vis == mu * (1.0 + 2.0 * e * c + e * e)
    ensures vr * vr + vt * vt == vis <==> e == 0.0 || s == 0.0 || c == 0.0
  {
    EngineScaled(p, vr, vt, k, mu * (q * q));
    GapZero(mu, e, c, s, q, k);
    CancelPositive(p, vr * vr + vt * vt, vis, mu * (q * q) * (1.0 + k * k),
                   mu * (1.0 + 2.0 * e * c + e * e), e == 0.0 || s == 0.0 || c == 0.0);
  }

  /**
   * The comparison for a focal radius r, semi-latus rectum p and speeds (v_r, v_theta)
   * given by their defining equations.
   */
  lemma EngineAgainstVisViva(mu: Mu, a: real, e: real, c: real, s: real, h: real,
                             r: real, p: real, vr: real, vt: real)
    requires ValidEllipse(a, e) && IsDirection(c, s) && h > 0.0 && r > 0.0
    requires p == a * (1.0 - e * e) && r * (1.0 + e * c) == p && h * h == mu * p
    requires vt * r == h && vr == vt * (e * s)
    ensures vr * vr + vt * vt == SpeedSq(mu, r, a) <==> e == 0.0 || s == 0.0 || c == 0.0
  {
    var q := 1.0 + e * c;
    DenominatorBounds(e, c);
    MulLt(r, 0.0, q);
    TangentialOverSemiLatus(mu, h, vt, r, p, q);
    VisVivaOverSemiLatus(mu, a, e, c, r, p);
    SpeedAgreement(mu, e, c, s, p, q, e * s, vr, vt, SpeedSq(mu, r, a));
  }

  /**
   * On every ellipse the engine's speed from v_r = h e sin(nu) / r and v_theta = h / r
   * agrees with vis-viva exactly on a circle, at the two apsides (sin nu = 0) and at
   * cos nu = 0; everywhere else the two differ.
   */
  lemma SpeedMatchesVisVivaExactlyAt(mu: Mu, a: real, e: real, c: real, s: real, h: real)
    requires ValidEllipse(a, e) && IsDirection(c, s)
    requires h > 0.0 && h * h == AngularMomentumSq(mu, a, e)
    ensures var v := PlanetVelocity(mu, a, e, c, s, h);
            v.radial * v.radial + v.tangential * v.tangential == SpeedSq(mu, Radius(a, e, c), a)
            <==> e == 0.0 || s == 0.0 || c == 0.0
  {
    var v := PlanetVelocity(mu, a, e, c, s, h);
    var r := Radius(a, e, c);
    var p := Radius(a, e, 0.0);
    EngineAgainstVisViva(mu, a, e, c, s, h, r, p, v.radial, v.tangential);
  }
}

=== FILE: real_arith.dfy ===
/** Small facts about ordered-field arithmetic on `real` that the orbital proofs lean on. */
module RealArith {

  function Min(x: real, y: real): (m: real)
    ensures m <= x && m <= y
    ensures m == x || m == y
  {
    if x <= y then x else y
  }

  function Max(x: real, y: real): (m: real)
    ensures m >= x && m >= y
    ensures m == x || m == y
  {
    if x >= y then x else y
  }

  function Abs(x: real): (m: real)
    ensures m >= 0.0
    ensures m == x || m == -x
  {
    if x >= 0.0 then x else -x
  }

  /** Multiplying by a non-negative factor keeps an order. */
  lemma MulLe(k: real, x: real, y: real)
    requires k >= 0.0 && x <= y
    ensures k * x <= k * y
  {}

  /** Multiplying by a positive factor keeps a strict order. */
  lemma MulLt(k: real, x: real, y: real)
    requires k > 0.0 && x < y
    ensures k * x < k * y
  {}

  /** A product is zero exactly when a factor is. */
  lemma ZeroProduct(x: real, y: real)
    ensures x * y == 0.0 <==> x == 0.0 || y == 0.0
  {
    if x > 0.0 && y > 0.0 {
      MulLt(x, 0.0, y);
    } else if x > 0.0 && y < 0.0 {
      MulLt(x, y, 0.0);
    } else if x < 0.0 && y > 0.0 {
      MulLt(y, x, 0.0);
    } else if x < 0.0 && y < 0.0 {
      MulLt(-x, y, 0.0);
    }
  }

  /** The square of a real. */
  function Sq(x: real): real {
    x * x
  }

  /** The square of a positive real is positive. */
  lemma PositiveSq(x: real)
    requires x > 0.0
    ensures Sq(x) > 0.0
  {
    SquareLt(0.0, x);
  }

  /** No square is negative. */
  lemma SquareNonNegative(x: real)
    ensures Sq(x) >= 0.0
  {
    if x >= 0.0 {
      MulLe(x, 0.0, x);
    } else {
      MulLe(-x, 0.0, -x);
    }
  }

  /**
   * Scaling `k > 0` by a fraction in (0, 1] gives a positive value at most `k`, equal to
   * it only for the whole.
   */
  lemma ScaleFraction(k: real, f: real)
    requires k > 0.0 && 0.0 < f <= 1.0
    ensures 0.0 < k * f <= k
    ensures k * f == k <==> f == 1.0
  {
    MulLe(k, f, 1.0);
    MulLt(k, 0.0, f);
    if f < 1.0 {
      MulLt(k, f, 1.0);
    }
  }

  /** `lo <= n / d <= hi` follows from the cross-multiplied bounds when `d > 0`. */
  lemma DivBetween(n: real, d: real, lo: real, hi: real)
    requires d > 0.0
    requires lo * d <= n <= hi * d
    ensures lo <= n / d <= hi
  {
    assert n / d * d == n;
    if n / d < lo {
      MulLt(d, n / d, lo);
    }
    if n / d > hi {
      MulLt(d, hi, n / d);
    }
  }

  /** A larger positive denominator gives a smaller quotient. */
  lemma DivAntitone(n: real, d1: real, d2: real)
    requires n >= 0.0 && 0.0 < d1 <= d2
    ensures n / d2 <= n / d1
    ensures n > 0.0 && d1 < d2 ==> n / d2 < n / d1
  {
    assert n / d1 * d1 == n;
    assert n / d2 * d2 == n;
    if n / d2 > n / d1 {
      MulLe(n / d1, d1, d2);
      MulLt(d2, n / d1, n / d2);
    }
    if n > 0.0 && d1 < d2 && n / d2 >= n / d1 {
      MulLt(n / d1, d1, d2);
      MulLe(d2, n / d1, n / d2);
    }
  }

  /** Squaring is strictly monotone on the non-negative reals. */
  lemma SquareLt(x: real, y: real)
    requires 0.0 <= x < y
    ensures x * x < y * y
  {
    calc {
      x * x;
    <= { MulLe(x, x, y); }
      x * y;
    < { MulLt(y, x, y); }
      y * y;
    }
  }

  /** On the non-negative reals, squares compare exactly as their roots do. */
  lemma SquareOrder(x: real, y: real)
    requires x >= 0.0 && y >= 0.0
    ensures x <= y <==> x * x <= y * y
    ensures x == y <==> x * x == y * y
  {
    if x < y {
      SquareLt(x, y);
    } else if y < x {
      SquareLt(y, x);
    }
  }
}

=== FILE: results.dfy ===
/** Outcome of an engine operation that can raise an error in the program. */
module Results {

  /** `Err` carries the message of the exception the program raises. */
  datatype Result<+T> = Ok(value: T) | Err(message: string)
}

=== FILE: transfer_machine.dfy ===
/**
 * The non-drawing logic of the transfer animation's per-frame `update` and of the
 * start button: a small immutable state, a pure step per frame, and what each frame shows.
 */
module TransferMachine {
  import opened Results
  import opened RealArith
  import opened VisViva
  import opened Conic
  import opened Hohmann
  import opened TransferSchedule

  /**
   * The module-level variables `update` reads and writes: the current circular radius and
   * the `transfer_initiated` / `transfer_complete` flags.
   */
  datatype State = State(radius: real, initiated: bool, complete: bool)

  /** The target-radius box: blank, or holding a number. */
  datatype Target = Blank | Entered(radius: real)

  /**
   * Where a frame puts the craft: on a circle, or on the transfer ellipse. On the ellipse
   * the program places the craft at angle pi * progress from periapsis; that angle is
   * not carried here, only the ellipse itself.
   */
  datatype Path = Circle(radius: real) | TransferArc(semiMajor: real, eccentricity: real)

  /**
   * The speed a frame shows, as squared speeds: a fixed speed, or the linear ramp between
   * the roots of two squared speeds at the frame's progress.
   */
  datatype SpeedShown = Steady(sq: real) | Ramp(fromSq: real, toSq: real)

  /**
   * What a frame draws: idle circular coasting, nothing new (blank target), or one frame of
   * the manoeuvre.
   */
  datatype View =
    | Idle(radius: real, speedSq: real)
    | Unchanged
    | Manoeuvre(phase: Phase, progress: real, path: Path, speed: SpeedShown)

  datatype Step = Step(next: State, view: View)

  /** The starting orbit, 1 AU (1.496e11 m). */
  const InitialRadius: real := 149600000000.0

  const Initial: State := State(InitialRadius, false, false)

  /**
   * The states the program can reach: a positive radius, and never initiated and
   * complete at once.
   */
  predicate Consistent(s: State) {
    s.radius > 0.0 && (s.initiated ==> !s.complete)
  }

  /** `start_transfer`: the button raises the initiated flag and clears the complete flag. */
  function StartTransfer(s: State): (s': State)
    ensures s'.initiated && !s'.complete
    ensures s'.radius == s.radius
  {
    State(s.radius, true, false)
  }

  /** The path drawn in each phase of a transfer from r1 to r2. */
  function PathOf(p: Phase, r1: real, r2: real): Path
    requires r1 > 0.0 && r2 > 0.0
  {
    match p
    case PreBurn => Circle(r1)
    case Burn1 => Circle(r1)
    case TransferCoast => TransferArc(SemiMajor(r1, r2), Eccentricity(r1, r2))
    case Burn2 => Circle(r2)
    case PostBurn => Circle(r2)
    case Committed => Circle(r2)
  }

  /** The speed shown in each phase, from the solver's four squared speeds. */
  function SpeedOf(p: Phase, speeds: TransferSpeeds): SpeedShown {
    match p
    case PreBurn => Steady(speeds.circular1)
    case Burn1 => Ramp(speeds.circular1, speeds.transfer1)
    case TransferCoast => Ramp(speeds.transfer1, speeds.transfer2)
    case Burn2 => Ramp(speeds.transfer2, speeds.circular2)
    case PostBurn => Steady(speeds.circular2)
    case Committed => Steady(speeds.circular2)
  }

  /**
   * One call of `update(frame)`. Before a transfer is started the craft coasts on its
   * circle at circular speed. Once started, a blank target changes nothing, a non-positive
   * target raises the solver's error, and otherwise the frame is drawn in the phase its
   * index selects. The state changes only on a commit frame of an incomplete transfer,
   * where the target becomes the new circular radius and the flags flip.
   */
  function Update(mu: Mu, s: State, target: Target, frame: nat): (res: Result<Step>)
    requires s.radius > 0.0
    ensures res.Err? <==> s.initiated && target.Entered? && target.radius <= 0.0
    ensures !s.initiated ==>
      res.Ok? && res.value.next == s && res.value.view.Idle? &&
      res.value.view.radius == s.radius && res.value.view.speedSq * s.radius == mu
    ensures s.initiated && target.Blank? ==> res == Ok(Step(s, Unchanged))
    ensures res.Ok? && res.value.next != s ==>
      && s.initiated && !s.complete && target.Entered?
      && PhaseOf(frame) == Committed
      && res.value.next == State(target.radius, false, true)
  {
    if !s.initiated then
      Ok(Step(s, Idle(s.radius, CircularSpeedSq(mu, s.radius))))
    else if target.Blank? then
      Ok(Step(s, Unchanged))
    else
      match Solve(mu, s.radius, target.radius)
      case Err(message) => Err(message)
      case Ok(speeds) =>
        var phase := PhaseOf(frame);
        var next := if phase == Committed && !s.complete then State(target.radius, false, true) else s;
        Ok(Step(next, Manoeuvre(phase, Progress(frame), PathOf(phase, s.radius, target.radius), SpeedOf(phase, speeds))))
  }

  /** Every step and every click keeps the state consistent. */
  lemma TransitionsPreserveConsistency(mu: Mu, s: State, target: Target, frame: nat)
    requires Consistent(s)
    ensures Consistent(StartTransfer(s))
    ensures Update(mu, s, target, frame).Ok? ==> Consistent(Update(mu, s, target, frame).value.next)
  {}

  /** Clicking start while a transfer is under way changes nothing. */
  lemma StartDuringTransferIsNoOp(s: State)
    requires Consistent(s) && s.initiated
    ensures StartTransfer(s) == s
  {}

  /**
   * On a commit frame of a started transfer with a valid target, the new circular radius is
   * exactly the target and the flags read complete and not initiated.
   */
  lemma CommitReplacesRadius(mu: Mu, s: State, r2: real, frame: nat)
    requires Consistent(s) && s.initiated && r2 > 0.0
    requires PhaseOf(frame) == Committed
    ensures Update(mu, s, Entered(r2), frame).Ok?
    ensures Update(mu, s, Entered(r2), frame).value.next == State(r2, false, true)
  {}

  /** The program starts idle on a 1 AU circle, a consistent state. */
  lemma InitialConsistent()
    ensures Consistent(Initial)
    ensures !Initial.initiated && Initial.radius == InitialRadius
  {}

  /** With the complete flag set, no frame changes the state: the commit guard. */
  lemma CompleteFlagBlocksCommit(mu: Mu, s: State, target: Target, frame: nat)
    requires s.radius > 0.0 && s.complete
    ensures Update(mu, s, target, frame).Ok? ==> Update(mu, s, target, frame).value.next == s
  {}

  /**
   * A commit happens once: after the step that commits, no later frame (whatever the box
   * holds) changes the state until start is clicked again.
   */
  lemma CommitHappensOnce(mu: Mu, s: State, target: Target, frame: nat, target': Target, frame': nat)
    requires s.radius > 0.0
    requires Update(mu, s, target, frame).Ok?
    requires Update(mu, s, target, frame).value.next != s
    ensures Update(mu, s, target, frame).value.next.radius > 0.0
    ensures Update(mu, Update(mu, s, target, frame).value.next, target', frame').Ok?
    ensures Update(mu, Update(mu, s, target, frame).value.next, target', frame').value.next
            == Update(mu, s, target, frame).value.next
  {}

  /**
   * The shown speed during a ramp, taken between the roots of its endpoint squared speeds,
   * is a speed whose square stays between the two endpoint squares.
   */
  lemma RampSpeedBetween(fromSq: real, toSq: real, x: real, y: real, progress: real)
    requires IsRoot(x, fromSq) && IsRoot(y, toSq) && 0.0 <= progress <= 1.0
    ensures Lerp(x, y, progress) >= 0.0
    ensures Min(fromSq, toSq) <= Lerp(x, y, progress) * Lerp(x, y, progress) <= Max(fromSq, toSq)
  {
    var v := Lerp(x, y, progress);
    SquareOrder(Min(x, y), v);
    SquareOrder(v, Max(x, y));
  }

  /**
   * The speeds shown across the schedule join up: each ramp starts at the speed the
   * previous phase showed last and ends at the speed the next phase starts with.
   */
  lemma SpeedProfileContinuous(speeds: TransferSpeeds)
    ensures SpeedOf(Burn1, speeds).fromSq == SpeedOf(PreBurn, speeds).sq
    ensures SpeedOf(TransferCoast, speeds).fromSq == SpeedOf(Burn1, speeds).toSq
    ensures SpeedOf(Burn2, speeds).fromSq == SpeedOf(TransferCoast, speeds).toSq
    ensures SpeedOf(PostBurn, speeds).sq == SpeedOf(Burn2, speeds).toSq
    ensures SpeedOf(Committed, speeds) == SpeedOf(PostBurn, speeds)
  {}

  /**
   * Every frame of a started transfer with a valid target draws a manoeuvre frame whose
   * speed ramps only during the two burns and the coast, always between positive squared
   * speeds and at a progress in [0, 1), and whose circle (if any) has a positive radius.
   */
  lemma RampsStayWithinTheirPhase(mu: Mu, s: State, r2: real, frame: nat)
    requires Consistent(s) && s.initiated && r2 > 0.0
    ensures Update(mu, s, Entered(r2), frame).Ok?
    ensures var view := Update(mu, s, Entered(r2), frame).value.view;
            && view.Manoeuvre?
            && 0.0 <= view.progress
            && (view.path.Circle? ==> view.path.radius > 0.0)
            && (view.speed.Ramp? ==>
                  && view.phase in {Burn1, TransferCoast, Burn2}
                  && view.progress < 1.0
                  && view.speed.fromSq > 0.0 && view.speed.toSq > 0.0)
            && (view.speed.Steady? ==> view.speed.sq > 0.0)
  {}

  /**
   * A frame of a started transfer from r1 (the current radius) to r2 follows the schedule:
   * it is drawn in the phase the frame index selects, at that phase's progress; the craft
   * is on the r1 circle up to the first burn, on the transfer ellipse (semi-major axis
   * (r1 + r2) / 2) during the coast and on the r2 circle from the second burn on; and its
   * speed is v1 before the burn, ramps v1 -> vt(r1) in burn 1, vt(r1) -> vt(r2) in the
   * coast and vt(r2) -> v2 in burn 2, then stays v2, where v1, v2 are the circular speeds
   * and vt(r) is the transfer-ellipse speed at radius r.
   */
  lemma ManoeuvreFollowsSchedule(mu: Mu, s: State, r2: real, frame: nat)
    requires Consistent(s) && s.initiated && r2 > 0.0
    ensures Update(mu, s, Entered(r2), frame).Ok?
    ensures var view := Update(mu, s, Entered(r2), frame).value.view;
            var r1 := s.radius;
            var a := SemiMajor(r1, r2);
            && view.Manoeuvre?
            && view.phase == PhaseOf(frame)
            && view.progress == Progress(frame)
            && (view.phase in {PreBurn, Burn1} ==> view.path == Circle(r1))
            && (view.phase == TransferCoast ==> view.path == TransferArc(a, Eccentricity(r1, r2)))
            && (view.phase == TransferCoast ==>
                  Radius(view.path.semiMajor, view.path.eccentricity, 1.0) == Min(r1, r2))
            && (view.phase in {Burn2, PostBurn, Committed} ==> view.path == Circle(r2))
            && (view.phase == PreBurn ==> view.speed == Steady(SpeedSq(mu, r1, r1)))
            && (view.phase == Burn1 ==> view.speed == Ramp(SpeedSq(mu, r1, r1), SpeedSq(mu, r1, a)))
            && (view.phase == TransferCoast ==> view.speed == Ramp(SpeedSq(mu, r1, a), SpeedSq(mu, r2, a)))
            && (view.phase == Burn2 ==> view.speed == Ramp(SpeedSq(mu, r2, a), SpeedSq(mu, r2, r2)))
            && (view.phase in {PostBurn, Committed} ==> view.speed == Steady(SpeedSq(mu, r2, r2)))
  {
    var speeds := Solve(mu, s.radius, r2).value;
    TransferEndpoints(s.radius, r2);
    assert SpeedOf(PhaseOf(frame), speeds).Steady? || SpeedOf(PhaseOf(frame), speeds).Ramp?;
  }
}

=== FILE: transfer_schedule.dfy ===
/**
 * The frame schedule of the transfer animation: which phase of the manoeuvre a frame
 * index falls in, how far through that phase it is, and the linear speed ramp of a burn.
 */
module TransferSchedule {
  import opened RealArith

  /** Frames of the animation loop (`time_steps`). */
  const TimeSteps: nat := 2000
  /** Frames spent on each burn (`burn_animation_frames`). */
  const BurnFrames: nat := 40
  /** Frames of circular coasting before the first burn (`pre_burn_frames`). */
  const PreBurnFrames: nat := 500
  /** Frames of circular coasting after the second burn (`post_burn_frames`). */
  const PostBurnFrames: nat := 500
  /** Frames of the half-ellipse coast: a quarter of the loop, by integer division. */
  const CoastFrames: nat := TimeSteps / 4

  datatype Phase = PreBurn | Burn1 | TransferCoast | Burn2 | PostBurn | Committed

  /** First frame of each phase: the running sum of the lengths of the phases before it. */
  function Start(p: Phase): nat {
    match p
    case PreBurn => 0
    case Burn1 => PreBurnFrames
    case TransferCoast => PreBurnFrames + BurnFrames
    case Burn2 => PreBurnFrames + BurnFrames + CoastFrames
    case PostBurn => PreBurnFrames + BurnFrames + CoastFrames + BurnFrames
    case Committed => PreBurnFrames + BurnFrames + CoastFrames + BurnFrames + PostBurnFrames
  }

  /** Length of a phase; the final phase is unbounded and is scaled by the whole loop. */
  function Length(p: Phase): nat {
    match p
    case PreBurn => PreBurnFrames
    case Burn1 => BurnFrames
    case TransferCoast => CoastFrames
    case Burn2 => BurnFrames
    case PostBurn => PostBurnFrames
    case Committed => TimeSteps
  }

  /** `frame` lies in the frame range owned by `p`. */
  predicate InPhase(frame: nat, p: Phase) {
    Start(p) <= frame && (p == Committed || frame < Start(p) + Length(p))
  }

  /**
   * The phase the cascade of frame comparisons in `update` selects. The selected phase's
   * range contains the frame.
   */
  function PhaseOf(frame: nat): (p: Phase)
    ensures InPhase(frame, p)
  {
    if frame < PreBurnFrames then PreBurn
    else if frame < PreBurnFrames + BurnFrames then Burn1
    else if frame < PreBurnFrames + BurnFrames + TimeSteps / 4 then TransferCoast
    else if frame < PreBurnFrames + BurnFrames + TimeSteps / 4 + BurnFrames then Burn2
    else if frame - (PreBurnFrames + BurnFrames + TimeSteps / 4 + BurnFrames) < PostBurnFrames then PostBurn
    else Committed
  }

  /**
   * The phase ranges are disjoint and exhaustive: a frame is in a phase's range exactly
   * when the dispatch selects that phase.
   */
  lemma PhasesPartitionFrames(frame: nat, p: Phase)
    ensures PhaseOf(frame) == p <==> InPhase(frame, p)
  {}

  /**
   * `progress` of a frame: the fraction of its phase already elapsed. It is zero on the
   * phase's first frame and below one in every bounded phase.
   */
  function Progress(frame: nat): (f: real)
    ensures 0.0 <= f
    ensures PhaseOf(frame) != Committed ==> f < 1.0
    ensures frame == Start(PhaseOf(frame)) ==> f == 0.0
    ensures Start(PhaseOf(frame)) as real + f * Length(PhaseOf(frame)) as real == frame as real
  {
    var p := PhaseOf(frame);
    var elapsed := frame - Start(p);
    ElapsedFraction(elapsed, Length(p));
    elapsed as real / Length(p) as real
  }

  /** The fraction elapsed / length of a phase with `length` frames. */
  lemma ElapsedFraction(elapsed: nat, length: nat)
    requires length > 0
    ensures 0.0 <= elapsed as real / length as real
    ensures elapsed < length ==> elapsed as real / length as real < 1.0
    ensures elapsed == 0 ==> elapsed as real / length as real == 0.0
  {
    var n := elapsed as real;
    var d := length as real;
    DivBetween(n, d, 0.0, n);
    if elapsed < length {
      assert n < 1.0 * d;
      if n / d >= 1.0 {
        assert n / d * d == n;
        MulLe(d, 1.0, n / d);
      }
    }
  }

  /** A rising ramp stays between its ends. */
  lemma RisingRampBetween(start: real, end: real, progress: real)
    requires start <= end && 0.0 <= progress <= 1.0
    ensures start <= start + (end - start) * progress <= end
  {
    MulLe(end - start, 0.0, progress);
    MulLe(end - start, progress, 1.0);
  }

  /** A falling ramp stays between its ends. */
  lemma FallingRampBetween(start: real, end: real, progress: real)
    requires end < start && 0.0 <= progress <= 1.0
    ensures end <= start + (end - start) * progress <= start
  {
    MulLe(start - end, 0.0, progress);
    MulLe(start - end, progress, 1.0);
  }

  /** The interpolation formula hits its ends at 0 and 1 and stays between them. */
  lemma InterpolationBounds(start: real, end: real, progress: real)
    ensures progress == 0.0 ==> start + (end - start) * progress == start
    ensures progress == 1.0 ==> start + (end - start) * progress == end
    ensures 0.0 <= progress <= 1.0 ==>
              Min(start, end) <= start + (end - start) * progress <= Max(start, end)
  {
    var d := end - start;
    if progress == 0.0 {
      assert d * progress == 0.0;
    }
    if progress == 1.0 {
      assert d * progress == d;
    }
    if 0.0 <= progress <= 1.0 {
      if start <= end {
        RisingRampBetween(start, end, progress);
        assert Min(start, end) == start && Max(start, end) == end;
      } else {
        FallingRampBetween(start, end, progress);
        assert Min(start, end) == end && Max(start, end) == start;
      }
    }
  }

  /**
   * Linear interpolation `start + (end - start) * progress`: equal to `start` at progress 0
   * and to `end` at progress 1, and between the two in between.
   */
  function Lerp(start: real, end: real, progress: real): (v: real)
    ensures progress == 0.0 ==> v == start
    ensures progress == 1.0 ==> v == end
    ensures 0.0 <= progress <= 1.0 ==> Min(start, end) <= v <= Max(start, end)
  {
    InterpolationBounds(start, end, progress);
    start + (end - start) * progress
  }
}

=== FILE: vis_viva.dfy ===
/**
 * The vis-viva relation v^2 = mu (2/r - 1/a), stated over squared speeds so that
 * no square root is needed.
 */
module VisViva {
  import opened RealArith

  /** A gravitational parameter mu = G * M; the engines only ever use a positive one. */
  type Mu = m: real | m > 0.0 witness 1.0

  /** `v` is the (non-negative) speed whose square is `sq`: the square root the program takes. */
  predicate IsRoot(v: real, sq: real) {
    v >= 0.0 && v * v == sq
  }

  /** Common-denominator form of the vis-viva energy term. */
  lemma EnergyTerm(r: real, a: real)
    requires r > 0.0 && a > 0.0
    ensures 2.0 / r - 1.0 / a == (2.0 * a - r) / (r * a)
  {}

  /**
   * Squared orbital speed at radius `r` on an orbit of semi-major axis `a`.
   * It is positive exactly inside the bound r < 2a (otherwise the program's square root
   * has no real value), and on a circle (a == r) it is the circular speed mu / r.
   */
  function SpeedSq(mu: Mu, r: real, a: real): (v2: real)
    requires r > 0.0 && a > 0.0
    ensures v2 > 0.0 <==> r < 2.0 * a
    ensures v2 == 0.0 <==> r == 2.0 * a
    ensures r == a ==> v2 == mu / r
  {
    EnergyTerm(r, a);
    var q := (2.0 * a - r) / (r * a);
    assert q * (r * a) == 2.0 * a - r;
    assert q > 0.0 <==> 2.0 * a - r > 0.0;
    assert q == 0.0 <==> 2.0 * a - r == 0.0;
    mu * (2.0 / r - 1.0 / a)
  }

  /** On a fixed orbit, the body moves faster the closer it is to the focus. */
  lemma SpeedSqDecreasesOutward(mu: Mu, r: real, r': real, a: real)
    requires 0.0 < r <= r' && a > 0.0
    ensures SpeedSq(mu, r, a) >= SpeedSq(mu, r', a)
    ensures r < r' ==> SpeedSq(mu, r, a) > SpeedSq(mu, r', a)
  {
    DivAntitone(2.0, r, r');
    MulLe(mu, 2.0 / r' - 1.0 / a, 2.0 / r - 1.0 / a);
    if r < r' {
      MulLt(mu, 2.0 / r' - 1.0 / a, 2.0 / r - 1.0 / a);
    }
  }

  /**
   * Compared with the circular speed at the same radius, a conic through radius `r` is
   * faster exactly when its semi-major axis exceeds `r` and equally fast exactly when it is
   * the circle itself: the direction of a tangential burn at `r`.
   */
  lemma BurnDirection(mu: Mu, r: real, a: real)
    requires r > 0.0 && a > 0.0
    ensures SpeedSq(mu, r, a) > SpeedSq(mu, r, r) <==> r < a
    ensures SpeedSq(mu, r, a) == SpeedSq(mu, r, r) <==> r == a
  {
    assert SpeedSq(mu, r, a) - SpeedSq(mu, r, r) == mu * (1.0 / r - 1.0 / a);
    DivAntitone(1.0, Min(r, a), Max(r, a));
    if r < a {
      MulLt(mu, 0.0, 1.0 / r - 1.0 / a);
    } else if a < r {
      MulLt(mu, 1.0 / r - 1.0 / a, 0.0);
    }
  }

  /** Speeds compare exactly as their squares do, so facts about squared speeds carry over. */
  lemma RootsOrdered(x: real, p: real, y: real, q: real)
    requires IsRoot(x, p) && IsRoot(y, q)
    ensures x <= y <==> p <= q
    ensures x == y <==> p == q
  {
    SquareOrder(x, y);
  }
}
